=== FILE: README.md ===
# Polygon editor interaction model

A Dafny model of the interaction logic of a small 3D drawing tool: the user
clicks on a ground plane to place vertices, completes them into a flat polygon
sorted by angle around its centroid, copies that polygon, drags the copy with
the pointer, drops it with a press, and resets everything. All of the logic
lives in the event handlers of `script.js`; the rendering library is treated as
an external collaborator.

The shared variables of the script (`vertices`, `polygon`, `copiedPolygon`,
`isMoving`) and the scene's list of children form one immutable `State`
record, and each handler is a pure function from a state (plus its inputs) to a
new state:

- `wrappers.dfy` (`Wrappers`): `Option` for ray-cast hits and nullable handles,
  `Result` for handlers that can raise an alert.
- `geometry.dfy` (`Geometry`): points with `real` coordinates, the (x, z)
  duplicate test, the centroid fold of the complete handler, the closed
  outline built from the sorted ring, and where the rotated mesh draws it.
- `angular_sort.dfy` (`AngularSort`): the stable sort by non-increasing angle
  around the centroid. `atan2` is a parameter of the model. Stability is stated
  through `Tie`, the elements of a list that share one key, in list order.
- `scene.dfy` (`Scene`): the scene's children, which objects reset spares, and
  the reset handler's index-descending removal loop as a method.
- `editor.dfy` (`Editor`): the state, one function per handler, `Step` and `Run`.
- `editor_properties.dfy` (`EditorProperties`): the invariant of every reachable
  state, marker counting, what reset leaves, and drag-and-drop scenarios.

Modelling decisions:

- A ray cast against the ground plane is an input `Option<Point>`: `None` is a miss.
- The start-up scene is `[AmbientLight, GroundPlane, GridHelper]`
  (script.js:10, 17, 21). Reset keeps only objects that are the plane or the
  grid (script.js:161), so it also removes the ambient light although the
  start-up code added it. The model follows the code. Every mesh uses an unlit
  material, so the removal has no visible effect.
- `scene.remove(obj)` removes that very object. Several markers can be equal as
  values, so the model removes the child at the loop index rather than the
  first child equal to it.
- The copy's position lives in the state. The scene holds an opaque `CopyMesh`
  for it, so a pointer move changes only the state's copy.
- The array sort is stable and its comparator is `angleB - angleA`, so the
  model's insertion sort places each vertex after every vertex whose angle is
  at least as large.
- A second complete press replaces `polygon` and leaves the earlier mesh in the
  scene. A copy press while already dragging replaces `copiedPolygon` and
  leaves the earlier copy in the scene. The model keeps both behaviours.

## Model

| member | source | states |
|---|---|---|
| Geometry.AnySameXZ | script.js:50 | true exactly when some stored vertex has the same x and z as the hit |
| Geometry.AppendKeepsDistinct | script.js:49-52 | appending a hit that matches no stored vertex keeps all stored vertices pairwise distinct in (x, z) |
| Geometry.CenterFoldIsShiftedMean | script.js:77-80 | the per-vertex shares x/n and z/n accumulated left to right add the sums divided by n to the accumulator |
| Geometry.CentroidIsMean | script.js:77-80 | the centre computed by the reduce is the arithmetic mean of the vertices' x and of their z |
| Geometry.SumsOfPermutation | script.js:77-80 | the sums of x and of z are the same for any reordering of the vertices |
| Geometry.CentroidOfPermutation | script.js:77-80 | the centre computed by the reduce does not depend on the order in which the vertices were clicked |
| Geometry.SquareCentroid | script.js:77-80 | the square (0,0), (2,0), (2,2), (0,2), clicked in any order, has its centre at (1, 1) |
| Geometry.Outline | script.js:90-98 | the outline has one more point than the ring, ends where it starts, and its i-th point shifted back by the centre is the i-th ring vertex |
| Geometry.DrawnOutlineIsMirrored | script.js:90-108 | the mesh's rotation by -pi/2 about x lays the outline point (dx, dz) at (dx, 0, -dz), so a polygon placed at the centroid draws each ring vertex at (x, 0.1, 2 centroid z - z): mirrored in z about the centroid |
| Geometry.DrawnOverMarkerIff | script.js:90-108 | a ring vertex is drawn over its own marker exactly when its z equals the centroid's z |
| Geometry.TriangleDrawnOffMarker | script.js:77-108 | the triangle (0,0), (2,0), (0,2) has its centroid at (2/3, 2/3) and its vertex (0, 2) is drawn at z = -2/3 |
| AngularSort.AngleKeyOfOffset | script.js:84-85 | the comparator's angle depends only on the vertex's ground offset from the centre: it ignores the height, and shifting the vertex and the centre by the same amount leaves it unchanged |
| AngularSort.Insert | script.js:83-87 | inserting into a non-increasing list gives a non-increasing list holding the old elements plus the new one, with the new one last among the elements of equal key |
| AngularSort.SortDescending | script.js:83-87 | the sort result is a permutation of its input with keys non-increasing from left to right, and elements of equal key keep their original relative order (the sort is stable) |
| AngularSort.SortByAngle | script.js:83-87 | the ring is a permutation of the vertices, of the same length, ordered by non-increasing angle around their centroid, with vertices of equal angle in click order |
| Scene.KeepFixtures | script.js:159-164 | what reset keeps is never longer than the original children, and every kept child is the plane or the grid |
| Scene.KeepFixturesContents | script.js:159-164 | the kept children are exactly the plane and grid among the originals, each as often as before, and nothing else |
| Scene.KeepFixturesAppend | script.js:159-164 | keeping fixtures of a concatenation is the concatenation of the kept parts, so relative order is preserved |
| Scene.KeepFixturesIdempotent | script.js:159-164 | filtering an already filtered scene changes nothing |
| Scene.RemoveDynamic | script.js:159-164 | the index-descending removal loop leaves exactly the fixtures of the original children, in their order |
| Scene.ResetInitialChildren | script.js:159-164 | reset of the start-up scene removes the ambient light and keeps the plane and the grid |
| Editor.Markers | script.js:59-67 | drawVertices adds one marker per stored vertex, each at that vertex |
| Editor.ClickAt | script.js:34-56 | a click while dragging, a miss, or a hit sharing (x, z) with a stored vertex changes nothing; any other hit is appended and one marker per stored vertex is appended to the scene, all else unchanged |
| Editor.Complete | script.js:70-110 | alerts exactly when fewer than 3 vertices exist; otherwise the vertices are untouched, the polygon ring is a permutation of them by non-increasing angle with ties in click order, the outline is the ring relative to the centroid closed back to its first point, the polygon sits at the centroid at height 0.1, each ring vertex is drawn mirrored in z about the centroid, and exactly one object is added |
| Editor.CopyPolygon | script.js:113-125 | alerts exactly when there is no polygon; otherwise the copy has the polygon's outline at (0, 0.1, 0), dragging is on, and exactly one object is added |
| Editor.PointerMoveTo | script.js:128-146 | only the copy's position can change, and it changes to (hit x, 0.1, hit z) exactly when dragging a copy and the ray hits |
| Editor.PointerPress | script.js:149-154 | afterwards dragging is off and nothing else has changed |
| Editor.Step | script.js:34-178 | every event goes to its handler; a pointer press always leaves dragging off, and every event but reset keeps the existing children, in order, at the front of the scene |
| Editor.AlertIsNoOp | script.js:71-114 | a complete press with fewer than 3 vertices and a copy press without a polygon raise an alert and leave the whole state unchanged, dragging included |
| Editor.Reset | script.js:157-178 | vertices empty, no polygon, no copy, not dragging, and the children are exactly the fixtures among the old children, each as often as before |
| EditorProperties.ResetShape | script.js:159-164 | from any reachable scene, reset keeps exactly the ground plane followed by the grid |
| EditorProperties.ClickKeepsValid | script.js:34-66 | a click keeps the invariant: the stored vertices stay pairwise distinct in (x, z) and no fixture joins the scene |
| EditorProperties.CompleteKeepsValid | script.js:70-110 | a successful complete press keeps the invariant: the new polygon has at least 3 vertices and lies at height 0.1 |
| EditorProperties.ResetFromValid | script.js:157-170 | from any state satisfying the invariant, reset yields no vertices, no polygon, no copy, no dragging and a scene of the plane then the grid |
| EditorProperties.StepKeepsValid | script.js:34-178 | every handler keeps the invariant: distinct vertices, dragging implies a copy, a copy implies a polygon, copies and polygons lie at height 0.1, polygons have at least 3 vertices, fixtures only at the front of the scene |
| EditorProperties.RunKeepsValid | script.js:34-178 | any sequence of events keeps the invariant |
| EditorProperties.Reachable | script.js:28-31 | in every reachable state no two vertices share (x, z), dragging implies a copy exists, and the copy lies at height 0.1 |
| EditorProperties.ResetAfterAnyEvents | script.js:157-170 | reset after any events yields no vertices, no polygon, no copy, no dragging, and a scene of exactly the plane and the grid |
| EditorProperties.ResetIdempotent | script.js:157-170 | resetting twice gives the same state as resetting once |
| EditorProperties.MarkerCountOfMarkers | script.js:59-67 | drawVertices adds exactly as many markers as there are stored vertices |
| EditorProperties.AcceptedClickMarkers | script.js:51-53 | an accepted click adds one marker per stored vertex, the new one included |
| EditorProperties.DistinctClicks | script.js:46-66 | when not dragging, clicks on points distinct in (x, z) from each other and from the stored vertices append them in order and add n times the old count plus n(n+1)/2 markers |
| EditorProperties.DistinctClicksFromStart | script.js:46-66 | from start-up, n distinct clicks store exactly those points and add n(n+1)/2 markers |
| EditorProperties.RunTwo | script.js:34-154 | two events in a row are the two handlers applied in order |
| EditorProperties.CopyThenPress | script.js:113-154 | copy followed by a press leaves a copy in place and dragging off |
| EditorProperties.DragAndDrop | script.js:113-154 | copy, a move to a hit, and a press leave the copy at (hit x, 0.1, hit z) with the polygon's outline, and dragging off |
| EditorProperties.DropClickOrder | script.js:149-154 | while dragging, a press then a click on a new point places that vertex, while a click then a press places none; dragging is off either way |

## Left out

- Renderer, camera, light set-up and the animation loop (script.js:1-25, 190-194): rendering with no state logic. Only the order in which the light, plane and grid join the scene is kept.
- Ray casting and the screen-to-device coordinate conversion (script.js:37-44, 131-139): float math in the rendering library. The hit is an `Option<Point>` input.
- `Math.atan2` (script.js:84-85): a parameter of the model, so the proved ordering holds for any angle function.
- Floating-point rounding: coordinates are exact reals, so the centroid is the exact mean. Duplicate detection uses exact equality, as the code does.
- Editor.Complete: the model does not correct the drawing. The mesh's rotation by -pi/2 about x (script.js:107) lays the shape point (dx, dz) at (dx, 0, -dz). So the polygon is drawn mirrored in z about the centroid rather than over the markers, and the copy, a clone (script.js:116), keeps that rotation. `Complete` and `DrawnOutlineIsMirrored` state where each vertex is drawn, and `TriangleDrawnOffMarker` gives an example. The model keeps the code's behaviour and does not state that the drawn polygon covers the clicked points.
- Mesh, shape, geometry and material construction, and `clone` (script.js:90-104, 116-117): each is one opaque object added to the scene. The outline's triangulation is not modelled.
- Alerts, debug-panel writes and console output (script.js:72, 114, 123-124, 144, 152, 173-177): alerts are the `Err` results of `Complete` and `CopyPolygon`. The reset handler writes "0" to the object-count readout although two children remain; that readout is not modelled.
- The once-a-second status polling (script.js:180-187): it only reads state.
- The browser's ordering of pointer-down and click on one physical click: they are independent events, and `DropClickOrder` states what each order does. Event bubbling from the buttons to the window's click listener is not modelled.
- The angular sort gives a simple polygon only for vertices in convex position; the model does not state anything about self-intersection.

=== FILE: angular_sort.dfy ===
/**
 The ordering step of the complete handler: a copy of the vertex list sorted by
 the angle of each vertex around the centroid, largest angle first.

 The angle is `atan2(dz, dx)` of the vertex's offset from the centroid; atan2
 itself is a parameter of the model. The array sort is stable, so it is modelled
 as an insertion sort that places each vertex after every vertex whose angle is
 at least as large.
 */
module AngularSort {
  import opened Geometry

  /** The sort key of the comparator: the angle of `p` seen from `c`, z offset first. */
  function AngleKey(atan2: (real, real) -> real, c: Center, p: Point): (angle: real) {
    atan2(p.z - c.z, p.x - c.x)
  }

  /**
   The key depends only on the vertex's offset from the centre on the ground:
   the height is ignored, and moving the vertex and the centre together
   leaves it unchanged.
   */
  lemma AngleKeyOfOffset(atan2: (real, real) -> real, c: Center, p: Point, d: Offset, y: real)
    ensures AngleKey(atan2, c, p.(y := y)) == AngleKey(atan2, c, p)
    ensures AngleKey(atan2, Center(c.x + d.dx, c.z + d.dz), Point(p.x + d.dx, p.y, p.z + d.dz))
            == AngleKey(atan2, c, p)
  {
  }

  /** The comparator's key as a function of the vertex alone. */
  function KeyAround(atan2: (real, real) -> real, c: Center): (key: Point -> real)
    ensures forall p :: key(p) == AngleKey(atan2, c, p)
  {
    p => AngleKey(atan2, c, p)
  }

  /** The vertices of `ring` appear by non-increasing angle around `c`. */
  predicate AngularOrder(ring: seq<Point>, c: Center, atan2: (real, real) -> real) {
    forall i, j :: 0 <= i < j < |ring| ==> AngleKey(atan2, c, ring[i]) >= AngleKey(atan2, c, ring[j])
  }

  /** Keys never increase from left to right. */
  predicate NonIncreasing(s: seq<Point>, key: Point -> real) {
    forall i, j :: 0 <= i < j < |s| ==> key(s[i]) >= key(s[j])
  }

  /** `p` alone if its key is `k`, otherwise nothing. */
  function TieOf(p: Point, key: Point -> real, k: real): (t: seq<Point>) {
    if key(p) == k then [p] else []
  }

  /** The elements of `s` whose key is `k`, in their order in `s`. */
  function Tie(s: seq<Point>, key: Point -> real, k: real): (t: seq<Point>)
    ensures forall i :: 0 <= i < |t| ==> key(t[i]) == k
  {
    if |s| == 0 then [] else TieOf(s[0], key, k) + Tie(s[1..], key, k)
  }

  /** Two lists order every group of equal keys alike. */
  ghost predicate SameTieOrder(r: seq<Point>, s: seq<Point>, key: Point -> real) {
    forall k :: Tie(r, key, k) == Tie(s, key, k)
  }

  lemma TieSingle(p: Point, key: Point -> real, k: real)
    ensures Tie([p], key, k) == TieOf(p, key, k)
  {
    assert [p][1..] == [];
  }

  /** Taking ties distributes over concatenation. */
  lemma {:induction false} TieAppend(a: seq<Point>, b: seq<Point>, key: Point -> real, k: real)
    ensures Tie(a + b, key, k) == Tie(a, key, k) + Tie(b, key, k)
    decreases |a|
  {
    if |a| == 0 {
      assert a + b == b;
    } else {
      assert (a + b)[0] == a[0];
      assert (a + b)[1..] == a[1..] + b;
      TieAppend(a[1..], b, key, k);
    }
  }

  /** No element has key `k` when every key is below it. */
  lemma {:induction false} TieBelow(s: seq<Point>, key: Point -> real, k: real)
    requires forall i :: 0 <= i < |s| ==> key(s[i]) < k
    ensures Tie(s, key, k) == []
    decreases |s|
  {
    if |s| > 0 {
      TieBelow(s[1..], key, k);
    }
  }

  /**
   Inserts `p` into a non-increasing list, after every element whose key is at
   least `key(p)`: among equal keys, `p` comes last.
   */
  function Insert(p: Point, s: seq<Point>, key: Point -> real): (r: seq<Point>)
    requires NonIncreasing(s, key)
    ensures multiset(r) == multiset(s) + multiset{p}
    ensures NonIncreasing(r, key)
    ensures forall k :: Tie(r, key, k) == Tie(s, key, k) + TieOf(p, key, k)
  {
    if |s| == 0 then
      assert forall k :: Tie([p], key, k) == Tie(s, key, k) + TieOf(p, key, k) by {
        forall k { TieSingle(p, key, k); }
      }
      [p]
    else if key(p) > key(s[0]) then
      InsertFront(p, s, key);
      [p] + s
    else
      var rest := Insert(p, s[1..], key);
      InsertBehind(p, s, rest, key);
      [s[0]] + rest
  }

  /** A key larger than the head's puts `p` in front. */
  lemma InsertFront(p: Point, s: seq<Point>, key: Point -> real)
    requires NonIncreasing(s, key)
    requires |s| > 0 && key(p) > key(s[0])
    ensures multiset([p] + s) == multiset(s) + multiset{p}
    ensures NonIncreasing([p] + s, key)
    ensures forall k :: Tie([p] + s, key, k) == Tie(s, key, k) + TieOf(p, key, k)
  {
    forall k
      ensures Tie([p] + s, key, k) == Tie(s, key, k) + TieOf(p, key, k)
    {
      TiesPrepend(p, s, key, k);
    }
  }

  /** Otherwise the head stays and `p` goes into the tail. */
  lemma InsertBehind(p: Point, s: seq<Point>, rest: seq<Point>, key: Point -> real)
    requires NonIncreasing(s, key)
    requires |s| > 0 && key(p) <= key(s[0])
    requires multiset(rest) == multiset(s[1..]) + multiset{p}
    requires NonIncreasing(rest, key)
    requires forall k :: Tie(rest, key, k) == Tie(s[1..], key, k) + TieOf(p, key, k)
    ensures multiset([s[0]] + rest) == multiset(s) + multiset{p}
    ensures NonIncreasing([s[0]] + rest, key)
    ensures forall k :: Tie([s[0]] + rest, key, k) == Tie(s, key, k) + TieOf(p, key, k)
  {
    var h, tail := s[0], s[1..];
    assert s == [h] + tail;
    assert multiset([h] + rest) == multiset{h} + multiset(rest);
    assert multiset(s) == multiset{h} + multiset(tail);
    InsertHeadKeeps(h, p, tail, rest, key);
    TiesBehindHead(s, rest, p, key);
  }

  lemma TiesBehindHead(s: seq<Point>, rest: seq<Point>, p: Point, key: Point -> real)
    requires |s| > 0
    requires forall k :: Tie(rest, key, k) == Tie(s[1..], key, k) + TieOf(p, key, k)
    ensures forall k :: Tie([s[0]] + rest, key, k) == Tie(s, key, k) + TieOf(p, key, k)
  {
    assert s == [s[0]] + s[1..];
    forall k
      ensures Tie([s[0]] + rest, key, k) == Tie(s, key, k) + TieOf(p, key, k)
    {
      TiesAfterHead(s[0], s[1..], rest, p, key, k);
    }
  }

  /** Putting `p` in front of a list whose keys are all below `key(p)` adds it last to its own group. */
  lemma TiesPrepend(p: Point, s: seq<Point>, key: Point -> real, k: real)
    requires NonIncreasing(s, key)
    requires |s| > 0 && key(p) > key(s[0])
    ensures Tie([p] + s, key, k) == Tie(s, key, k) + TieOf(p, key, k)
  {
    TieSingle(p, key, k);
    TieAppend([p], s, key, k);
    if key(p) == k {
      TieBelow(s, key, k);
    }
  }

  /** A head in front of both sides of a tie equation keeps it. */
  lemma TiesAfterHead(h: Point, tail: seq<Point>, rest: seq<Point>, p: Point, key: Point -> real, k: real)
    requires Tie(rest, key, k) == Tie(tail, key, k) + TieOf(p, key, k)
    ensures Tie([h] + rest, key, k) == Tie([h] + tail, key, k) + TieOf(p, key, k)
  {
    TieAppend([h], rest, key, k);
    TieAppend([h], tail, key, k);
  }

  /** The head of a sorted list stays first when `p` goes into its tail. */
  lemma InsertHeadKeeps(h: Point, p: Point, tail: seq<Point>, rest: seq<Point>, key: Point -> real)
    requires NonIncreasing([h] + tail, key)
    requires key(p) <= key(h)
    requires multiset(rest) == multiset(tail) + multiset{p}
    requires NonIncreasing(rest, key)
    ensures NonIncreasing([h] + rest, key)
  {
    var r := [h] + rest;
    forall i, j | 0 <= i < j < |r|
      ensures key(r[i]) >= key(r[j])
    {
      if i == 0 {
        var q := rest[j - 1];
        assert q in multiset(rest);
        if q != p {
          assert q in multiset(tail);
          var k :| 0 <= k < |tail| && tail[k] == q;
          assert ([h] + tail)[k + 1] == q;
          assert ([h] + tail)[0] == h;
        }
      } else {
        assert r[i] == rest[i - 1] && r[j] == rest[j - 1];
      }
    }
  }

  /**
   The stable sort by non-increasing key: inserts the elements in their
   original order, so elements with equal keys keep their relative order.
   */
  function SortDescending(s: seq<Point>, key: Point -> real): (r: seq<Point>)
    ensures multiset(r) == multiset(s)
    ensures NonIncreasing(r, key)
    ensures SameTieOrder(r, s, key)
  {
    if |s| == 0 then []
    else
      var init := s[..|s| - 1];
      var last := s[|s| - 1];
      assert s == init + [last];
      var sorted := SortDescending(init, key);
      TiesOfLast(init, last, sorted, key);
      Insert(last, sorted, key)
  }

  /** Adding `last` to the end of its group turns the ties of `init` into those of `init + [last]`. */
  lemma TiesOfLast(init: seq<Point>, last: Point, sorted: seq<Point>, key: Point -> real)
    requires SameTieOrder(sorted, init, key)
    ensures forall k :: Tie(sorted, key, k) + TieOf(last, key, k) == Tie(init + [last], key, k)
  {
    forall k
      ensures Tie(sorted, key, k) + TieOf(last, key, k) == Tie(init + [last], key, k)
    {
      TieAppend(init, [last], key, k);
      TieSingle(last, key, k);
    }
  }

  /**
   `vertices.slice().sort(...)`: the ring of the polygon, a reordering of the
   vertices by non-increasing angle around their centroid in which vertices of
   equal angle keep their click order.
   */
  function SortByAngle(vertices: seq<Point>, atan2: (real, real) -> real): (ring: seq<Point>)
    requires |vertices| > 0
    ensures multiset(ring) == multiset(vertices)
    ensures |ring| == |vertices|
    ensures AngularOrder(ring, Centroid(vertices), atan2)
    ensures SameTieOrder(ring, vertices, KeyAround(atan2, Centroid(vertices)))
  {
    var key := KeyAround(atan2, Centroid(vertices));
    var ring := SortDescending(vertices, key);
    assert |ring| == |multiset(ring)| == |multiset(vertices)| == |vertices|;
    ring
  }
}

=== FILE: editor.dfy ===
/**
 The interaction state machine of the polygon editor: the vertex list, the
 primary polygon, its copy, the drag flag and the scene's children, with one
 pure step function per event handler.
 */
module Editor {
  import opened Wrappers
  import opened Geometry
  import opened AngularSort
  import opened Scene

  /** The primary polygon: its angularly sorted ring, its closed outline and its position. */
  datatype Polygon = Polygon(ring: seq<Point>, outline: seq<Offset>, position: Point)

  /** The copy of the polygon: the same outline, at a position of its own. */
  datatype Copy = Copy(outline: seq<Offset>, position: Point)

  /** The state the handlers share. */
  datatype State = State(
    vertices: seq<Point>,
    polygon: Option<Polygon>,
    copied: Option<Copy>,
    isMoving: bool,
    children: seq<SceneObject>)

  /** The two user-facing alerts. An alerted handler changes nothing. */
  datatype Alert = TooFewPoints | NoPolygonToCopy

  /** The user's actions. A ray cast against the ground plane is `Some(hit)` or `None`. */
  datatype Event =
    | Click(hit: Option<Point>)
    | CompletePressed
    | CopyPressed
    | PointerMove(hit: Option<Point>)
    | PointerDown
    | ResetPressed

  /** The state after the start-up code. */
  const Start := State([], None, None, false, InitialChildren)

  /** The state reset leaves behind when it starts from any reachable state. */
  const Cleared := State([], None, None, false, [GroundPlane, GridHelper])

  /** Where the copy is first placed. */
  const CopyOrigin := Point(0.0, Lift, 0.0)

  /** The markers `drawVertices` adds: one per stored vertex, at that vertex. */
  function Markers(vs: seq<Point>): (ms: seq<SceneObject>)
    ensures |ms| == |vs|
    ensures forall i :: 0 <= i < |vs| ==> ms[i] == VertexMarker(vs[i])
  {
    if |vs| == 0 then [] else [VertexMarker(vs[0])] + Markers(vs[1..])
  }

  /**
   A click on the window. Ignored while dragging, on a miss, and when the hit
   shares (x, z) with a stored vertex; otherwise the hit is appended and every
   stored vertex gets a new marker.
   */
  function ClickAt(s: State, hit: Option<Point>): (r: State)
    ensures s.isMoving || hit.None? ==> r == s
    ensures hit.Some? && AnySameXZ(s.vertices, hit.value) ==> r == s
    ensures !s.isMoving && hit.Some? && !AnySameXZ(s.vertices, hit.value) ==>
              && r.vertices == s.vertices + [hit.value]
              && |r.children| == |s.children| + |r.vertices|
              && r.children[..|s.children|] == s.children
              && (forall i :: 0 <= i < |r.vertices| ==>
                    r.children[|s.children| + i] == VertexMarker(r.vertices[i]))
              && r.polygon == s.polygon && r.copied == s.copied && r.isMoving == s.isMoving
  {
    if s.isMoving then s
    else match hit
      case None => s
      case Some(p) =>
        if AnySameXZ(s.vertices, p) then s
        else
          var vs := s.vertices + [p];
          s.(vertices := vs, children := s.children + Markers(vs))
  }

  /**
   The complete button. With fewer than three vertices it alerts; otherwise it
   builds a polygon from a sorted copy of the vertices, lays it at the
   centroid just above the ground, and adds one mesh to the scene.
   */
  function Complete(s: State, atan2: (real, real) -> real): (r: Result<State, Alert>)
    ensures r.Err? <==> |s.vertices| < 3
    ensures r.Err? ==> r.error == TooFewPoints
    ensures r.Ok? ==>
              var t := r.value;
              var c := Centroid(s.vertices);
              && t.vertices == s.vertices
              && t.copied == s.copied && t.isMoving == s.isMoving
              && t.children == s.children + [PolygonMesh]
              && t.polygon.Some?
              && multiset(t.polygon.value.ring) == multiset(s.vertices)
              && AngularOrder(t.polygon.value.ring, c, atan2)
              && SameTieOrder(t.polygon.value.ring, s.vertices, KeyAround(atan2, c))
              && t.polygon.value.position == Point(c.x, Lift, c.z)
              && t.polygon.value.outline == Outline(t.polygon.value.ring, c)
              && (forall i :: 0 <= i < |s.vertices| ==>
                    Drawn(t.polygon.value.outline[i], t.polygon.value.position)
                    == Point(t.polygon.value.ring[i].x, Lift, 2.0 * c.z - t.polygon.value.ring[i].z))
  {
    if |s.vertices| < 3 then Err(TooFewPoints)
    else
      var c := Centroid(s.vertices);
      var ring := SortByAngle(s.vertices, atan2);
      var polygon := Polygon(ring, Outline(ring, c), Point(c.x, Lift, c.z));
      DrawnOutlineIsMirrored(ring, c);
      Ok(s.(polygon := Some(polygon), children := s.children + [PolygonMesh]))
  }

  /**
   The copy button. Without a polygon it alerts; otherwise it clones the
   polygon's outline at the origin, adds one mesh and starts dragging.
   */
  function CopyPolygon(s: State): (r: Result<State, Alert>)
    ensures r.Err? <==> s.polygon.None?
    ensures r.Err? ==> r.error == NoPolygonToCopy
    ensures r.Ok? ==>
              && r.value.copied == Some(Copy(s.polygon.value.outline, CopyOrigin))
              && r.value.isMoving
              && r.value.children == s.children + [CopyMesh]
              && r.value.vertices == s.vertices && r.value.polygon == s.polygon
  {
    match s.polygon
    case None => Err(NoPolygonToCopy)
    case Some(polygon) =>
      Ok(s.(copied := Some(Copy(polygon.outline, CopyOrigin)), isMoving := true,
            children := s.children + [CopyMesh]))
  }

  /**
   A pointer move. While dragging a copy, a hit moves the copy to the hit's
   (x, z) at the lifted height; nothing else ever changes.
   */
  function PointerMoveTo(s: State, hit: Option<Point>): (r: State)
    ensures r.vertices == s.vertices && r.polygon == s.polygon
    ensures r.isMoving == s.isMoving && r.children == s.children
    ensures r.copied.Some? <==> s.copied.Some?
    ensures r.copied != s.copied <==>
              s.isMoving && s.copied.Some? && hit.Some?
              && s.copied.value.position != Point(hit.value.x, Lift, hit.value.z)
    ensures s.isMoving && s.copied.Some? && hit.Some? ==>
              r.copied == Some(s.copied.value.(position := Point(hit.value.x, Lift, hit.value.z)))
  {
    if !s.isMoving || s.copied.None? then s
    else match hit
      case None => s
      case Some(p) => s.(copied := Some(s.copied.value.(position := Point(p.x, Lift, p.z))))
  }

  /** A pointer press: drops the copy where it is by clearing the drag flag. */
  function PointerPress(s: State): (r: State)
    ensures !r.isMoving
    ensures r.vertices == s.vertices && r.polygon == s.polygon
    ensures r.copied == s.copied && r.children == s.children
  {
    if s.isMoving then s.(isMoving := false) else s
  }

  /** The reset button: only the fixtures stay in the scene and all state is cleared. */
  function Reset(s: State): (r: State)
    ensures r.vertices == [] && r.polygon.None? && r.copied.None? && !r.isMoving
    ensures forall o :: o in r.children <==> o in s.children && IsFixture(o)
    ensures forall o :: IsFixture(o) ==> multiset(r.children)[o] == multiset(s.children)[o]
  {
    KeepFixturesContents(s.children);
    State([], None, None, false, KeepFixtures(s.children))
  }

  /** One event; an alert leaves the state as it was. */
  function Step(s: State, e: Event, atan2: (real, real) -> real): (r: State)
    ensures e.PointerDown? ==> !r.isMoving
    ensures !e.ResetPressed? ==> |r.children| >= |s.children| && r.children[..|s.children|] == s.children
  {
    match e
    case Click(hit) => ClickAt(s, hit)
    case CompletePressed =>
      (match Complete(s, atan2) case Ok(t) => t case Err(_) => s)
    case CopyPressed =>
      (match CopyPolygon(s) case Ok(t) => t case Err(_) => s)
    case PointerMove(hit) => PointerMoveTo(s, hit)
    case PointerDown => PointerPress(s)
    case ResetPressed => Reset(s)
  }

  /**
   A button press that raises an alert changes nothing: complete with fewer
   than three vertices, and copy before any polygon exists.
   */
  lemma AlertIsNoOp(s: State, e: Event, atan2: (real, real) -> real)
    ensures e.CompletePressed? && |s.vertices| < 3 ==> Step(s, e, atan2) == s
    ensures e.CopyPressed? && s.polygon.None? ==> Step(s, e, atan2) == s
  {
  }

  /** A sequence of events, in order. */
  function Run(s: State, es: seq<Event>, atan2: (real, real) -> real): (r: State)
    decreases |es|
  {
    if |es| == 0 then s else Run(Step(s, es[0], atan2), es[1..], atan2)
  }
}

=== FILE: editor_properties.dfy ===
/**
 Properties of event sequences: the invariant every reachable state keeps,
 the number of markers distinct clicks add, what reset leaves behind, and the
 drag-and-drop scenarios.
 */
module EditorProperties {
  import opened Wrappers
  import opened Geometry
  import opened Scene
  import opened Editor

  /** No child in `c` is a fixture. */
  predicate NoFixtures(c: seq<SceneObject>) {
    forall i :: 0 <= i < |c| ==> !IsFixture(c[i])
  }

  /**
   The children are the start-up objects (with or without the light, which reset
   removes) followed by objects the handlers added.
   */
  predicate SceneShape(c: seq<SceneObject>) {
    || (|c| >= 3 && c[..3] == InitialChildren && NoFixtures(c[3..]))
    || (|c| >= 2 && c[..2] == [GroundPlane, GridHelper] && NoFixtures(c[2..]))
  }

  /** What holds in every state reachable from start-up. */
  predicate Valid(s: State) {
    && DistinctXZ(s.vertices)
    && (s.isMoving ==> s.copied.Some?)
    && (s.copied.Some? ==> s.polygon.Some? && s.copied.value.position.y == Lift)
    && (s.polygon.Some? ==> |s.polygon.value.ring| >= 3 && s.polygon.value.position.y == Lift)
    && SceneShape(s.children)
  }

  lemma AppendKeepsShape(c: seq<SceneObject>, extra: seq<SceneObject>)
    requires SceneShape(c)
    requires NoFixtures(extra)
    ensures SceneShape(c + extra)
  {
  }

  lemma {:induction false} KeepFixturesOfNone(c: seq<SceneObject>)
    requires NoFixtures(c)
    ensures KeepFixtures(c) == []
    decreases |c|
  {
    if |c| > 0 {
      KeepFixturesOfNone(c[1..]);
    }
  }

  /** From any reachable scene, reset keeps exactly the ground plane and the grid. */
  lemma ResetShape(c: seq<SceneObject>)
    requires SceneShape(c)
    ensures KeepFixtures(c) == [GroundPlane, GridHelper]
  {
    var k := if |c| >= 3 && c[..3] == InitialChildren && NoFixtures(c[3..]) then 3 else 2;
    assert c == c[..k] + c[k..];
    KeepFixturesAppend(c[..k], c[k..]);
    KeepFixturesOfNone(c[k..]);
    if k == 3 {
      ResetInitialChildren();
    } else {
      assert KeepFixtures([GroundPlane, GridHelper]) == [GroundPlane] + KeepFixtures([GridHelper]);
      assert [GridHelper][1..] == [];
    }
  }

  lemma StartIsValid()
    ensures Valid(Start)
  {
  }

  lemma StepOfClick(s: State, hit: Option<Point>, atan2: (real, real) -> real)
    ensures Step(s, Click(hit), atan2) == ClickAt(s, hit)
  {
  }

  lemma StepOfComplete(s: State, atan2: (real, real) -> real)
    ensures |s.vertices| >= 3 ==> Step(s, CompletePressed, atan2) == Complete(s, atan2).value
  {
  }

  /** A click keeps vertices distinct in (x, z) and adds no fixture to the scene. */
  lemma ClickKeepsValid(s: State, hit: Option<Point>)
    requires Valid(s)
    ensures Valid(ClickAt(s, hit))
  {
    if !s.isMoving && hit.Some? && !AnySameXZ(s.vertices, hit.value) {
      AppendKeepsDistinct(s.vertices, hit.value);
      AppendKeepsShape(s.children, Markers(s.vertices + [hit.value]));
    }
  }

  /** A successful complete press builds a polygon of at least 3 vertices at height 0.1. */
  lemma CompleteKeepsValid(s: State, atan2: (real, real) -> real)
    requires Valid(s)
    requires |s.vertices| >= 3
    ensures Valid(Complete(s, atan2).value)
  {
    AppendKeepsShape(s.children, [PolygonMesh]);
    var ring := Complete(s, atan2).value.polygon.value.ring;
    assert |ring| == |multiset(ring)| == |multiset(s.vertices)| == |s.vertices|;
  }

  /** From any state satisfying the invariant, reset yields the cleared state. */
  lemma ResetFromValid(s: State)
    requires Valid(s)
    ensures Reset(s) == Cleared
  {
    ResetShape(s.children);
  }

  /** A successful copy press adds only the copy mesh, and its copy sits at height 0.1. */
  lemma CopyKeepsValid(s: State)
    requires Valid(s)
    requires s.polygon.Some?
    ensures Valid(CopyPolygon(s).value)
  {
    AppendKeepsShape(s.children, [CopyMesh]);
  }

  lemma StepOfCopy(s: State, atan2: (real, real) -> real)
    ensures s.polygon.Some? ==> Step(s, CopyPressed, atan2) == CopyPolygon(s).value
  {
  }

  lemma StepOfPointer(s: State, hit: Option<Point>, atan2: (real, real) -> real)
    ensures Step(s, PointerMove(hit), atan2) == PointerMoveTo(s, hit)
    ensures Step(s, PointerDown, atan2) == PointerPress(s)
  {
  }

  lemma StepOfReset(s: State, atan2: (real, real) -> real)
    ensures Step(s, ResetPressed, atan2) == Reset(s)
  {
  }

  lemma CompleteStepKeepsValid(s: State, atan2: (real, real) -> real)
    requires Valid(s)
    ensures Valid(Step(s, CompletePressed, atan2))
  {
    StepOfComplete(s, atan2);
    AlertIsNoOp(s, CompletePressed, atan2);
    if |s.vertices| >= 3 {
      CompleteKeepsValid(s, atan2);
    }
  }

  lemma CopyStepKeepsValid(s: State, atan2: (real, real) -> real)
    requires Valid(s)
    ensures Valid(Step(s, CopyPressed, atan2))
  {
    StepOfCopy(s, atan2);
    AlertIsNoOp(s, CopyPressed, atan2);
    if s.polygon.Some? {
      CopyKeepsValid(s);
    }
  }

  lemma ResetStepKeepsValid(s: State, atan2: (real, real) -> real)
    requires Valid(s)
    ensures Valid(Step(s, ResetPressed, atan2))
  {
    StepOfReset(s, atan2);
    ResetFromValid(s);
    assert Cleared.children[..2] == [GroundPlane, GridHelper];
  }

  /** Every handler keeps the invariant. */
  lemma StepKeepsValid(s: State, e: Event, atan2: (real, real) -> real)
    requires Valid(s)
    ensures Valid(Step(s, e, atan2))
  {
    match e
    case Click(hit) =>
      StepOfClick(s, hit, atan2);
      ClickKeepsValid(s, hit);
    case CompletePressed =>
      CompleteStepKeepsValid(s, atan2);
    case CopyPressed =>
      CopyStepKeepsValid(s, atan2);
    case PointerMove(hit) =>
      StepOfPointer(s, hit, atan2);
    case PointerDown =>
      StepOfPointer(s, None, atan2);
    case ResetPressed =>
      ResetStepKeepsValid(s, atan2);
  }

  /** Every state reached from a valid one by any events is valid. */
  lemma {:induction false} RunKeepsValid(s: State, es: seq<Event>, atan2: (real, real) -> real)
    requires Valid(s)
    ensures Valid(Run(s, es, atan2))
    decreases |es|
  {
    if |es| > 0 {
      StepKeepsValid(s, es[0], atan2);
      RunKeepsValid(Step(s, es[0], atan2), es[1..], atan2);
    }
  }

  /** In every reachable state no two vertices share (x, z) and dragging implies a copy exists. */
  lemma Reachable(es: seq<Event>, atan2: (real, real) -> real)
    ensures DistinctXZ(Run(Start, es, atan2).vertices)
    ensures Run(Start, es, atan2).isMoving ==> Run(Start, es, atan2).copied.Some?
    ensures Run(Start, es, atan2).copied.Some? ==> Run(Start, es, atan2).copied.value.position.y == Lift
  {
    StartIsValid();
    RunKeepsValid(Start, es, atan2);
  }

  /** Reset after any events returns the editor to the cleared state with only the two fixtures. */
  lemma ResetAfterAnyEvents(es: seq<Event>, atan2: (real, real) -> real)
    ensures Reset(Run(Start, es, atan2)) == Cleared
  {
    StartIsValid();
    RunKeepsValid(Start, es, atan2);
    ResetFromValid(Run(Start, es, atan2));
  }

  /** Resetting twice is resetting once. */
  lemma ResetIdempotent(s: State)
    ensures Reset(Reset(s)) == Reset(s)
  {
    KeepFixturesIdempotent(s.children);
  }

  /** The number of vertex markers among the children. */
  function MarkerCount(c: seq<SceneObject>): (n: nat) {
    if |c| == 0 then 0 else (if c[0].VertexMarker? then 1 else 0) + MarkerCount(c[1..])
  }

  lemma {:induction false} MarkerCountAppend(a: seq<SceneObject>, b: seq<SceneObject>)
    ensures MarkerCount(a + b) == MarkerCount(a) + MarkerCount(b)
    decreases |a|
  {
    if |a| == 0 {
      assert a + b == b;
    } else {
      assert (a + b)[1..] == a[1..] + b;
      MarkerCountAppend(a[1..], b);
    }
  }

  lemma {:induction false} MarkerCountOfMarkers(vs: seq<Point>)
    ensures MarkerCount(Markers(vs)) == |vs|
    decreases |vs|
  {
    if |vs| > 0 {
      MarkerCountOfMarkers(vs[1..]);
    }
  }

  /** An accepted click adds one marker per stored vertex, the new one included. */
  lemma AcceptedClickMarkers(s: State, p: Point)
    requires !s.isMoving && !AnySameXZ(s.vertices, p)
    ensures MarkerCount(ClickAt(s, Some(p)).children) == MarkerCount(s.children) + |s.vertices| + 1
  {
    MarkerCountAppend(s.children, Markers(s.vertices + [p]));
    MarkerCountOfMarkers(s.vertices + [p]);
  }

  /** Clicks hitting the given points, in order. */
  function Clicks(ps: seq<Point>): (es: seq<Event>) {
    seq(|ps|, i requires 0 <= i < |ps| => Click(Some(ps[i])))
  }

  /** The head of a list of new points matches none of the stored vertices. */
  lemma FirstIsNew(vs: seq<Point>, ps: seq<Point>)
    requires |ps| > 0
    requires DistinctXZ(vs + ps)
    ensures !AnySameXZ(vs, ps[0])
  {
    var all := vs + ps;
    forall i | 0 <= i < |vs|
      ensures !SameXZ(vs[i], ps[0])
    {
      assert all[i] == vs[i] && all[|vs|] == ps[0];
    }
  }

  /** A run of clicks is the first click followed by the run of the others. */
  lemma RunOfClicks(s: State, ps: seq<Point>, atan2: (real, real) -> real)
    requires |ps| > 0
    ensures Run(s, Clicks(ps), atan2) == Run(ClickAt(s, Some(ps[0])), Clicks(ps[1..]), atan2)
  {
    var es := Clicks(ps);
    assert |es| > 0 && es[0] == Click(Some(ps[0]));
    assert es[1..] == Clicks(ps[1..]);
    StepOfClick(s, Some(ps[0]), atan2);
  }

  lemma MarkerSum(n: int, v: int)
    requires n > 0 && v >= 0
    ensures (n - 1) * (v + 1) + (n - 1) * n / 2 + v + 1 == n * v + n * (n + 1) / 2
  {
    assert n * (n + 1) == (n - 1) * n + 2 * n;
    assert (n - 1) * (v + 1) == n * v + n - v - 1;
  }

  lemma {:induction false} DistinctClicks(s: State, ps: seq<Point>, atan2: (real, real) -> real)
    requires !s.isMoving
    requires DistinctXZ(s.vertices + ps)
    ensures Run(s, Clicks(ps), atan2).vertices == s.vertices + ps
    ensures MarkerCount(Run(s, Clicks(ps), atan2).children)
         == MarkerCount(s.children) + |ps| * |s.vertices| + |ps| * (|ps| + 1) / 2
    decreases |ps|
  {
    if |ps| == 0 {
      assert s.vertices + ps == s.vertices;
    } else {
      FirstIsNew(s.vertices, ps);
      var t := ClickAt(s, Some(ps[0]));
      AcceptedClickMarkers(s, ps[0]);
      assert t.vertices + ps[1..] == s.vertices + ps;
      RunOfClicks(s, ps, atan2);
      DistinctClicks(t, ps[1..], atan2);
      MarkerSum(|ps|, |s.vertices|);
    }
  }

  /**
   From start-up, n clicks on points with pairwise distinct (x, z) store exactly
   those points, in click order, and add n(n+1)/2 markers, since every accepted
   click redraws a marker for each stored vertex.
   */
  lemma DistinctClicksFromStart(ps: seq<Point>, atan2: (real, real) -> real)
    requires DistinctXZ(ps)
    ensures Run(Start, Clicks(ps), atan2).vertices == ps
    ensures MarkerCount(Run(Start, Clicks(ps), atan2).children) == |ps| * (|ps| + 1) / 2
  {
    assert Start.vertices + ps == ps;
    DistinctClicks(Start, ps, atan2);
    assert MarkerCount(Start.children) == 0 by {
      assert Start.children[1..][1..][1..] == [];
    }
  }

  /** Two events, one after the other. */
  lemma RunTwo(s: State, e1: Event, e2: Event, atan2: (real, real) -> real)
    ensures Run(s, [e1, e2], atan2) == Step(Step(s, e1, atan2), e2, atan2)
  {
    var s1 := Step(s, e1, atan2);
    assert [e1, e2][1..] == [e2];
    assert Run(s, [e1, e2], atan2) == Run(s1, [e2], atan2);
    assert [e2][1..] == [];
    assert Run(s1, [e2], atan2) == Run(Step(s1, e2, atan2), [], atan2);
  }

  /** Copy then a press: the drag flag is off again. */
  lemma CopyThenPress(s: State, atan2: (real, real) -> real)
    requires s.polygon.Some?
    ensures Run(s, [CopyPressed, PointerDown], atan2).copied.Some?
    ensures !Run(s, [CopyPressed, PointerDown], atan2).isMoving
  {
  }

  /** Copy, move to a hit, press: the copy stays at the hit's (x, z), lifted, and dragging stops. */
  lemma DragAndDrop(s: State, p: Point, atan2: (real, real) -> real)
    requires s.polygon.Some?
    ensures Run(s, [CopyPressed, PointerMove(Some(p)), PointerDown], atan2).copied
         == Some(Copy(s.polygon.value.outline, Point(p.x, Lift, p.z)))
    ensures !Run(s, [CopyPressed, PointerMove(Some(p)), PointerDown], atan2).isMoving
  {
    var es := [CopyPressed, PointerMove(Some(p)), PointerDown];
    assert es[1..] == [PointerMove(Some(p)), PointerDown];
    RunTwo(Step(s, CopyPressed, atan2), PointerMove(Some(p)), PointerDown, atan2);
  }

  /**
   The press and the click of one physical click are separate events. If the
   press comes first, the drop also places a vertex; if the click comes first,
   it is ignored because dragging is still on.
   */
  lemma DropClickOrder(s: State, p: Point, atan2: (real, real) -> real)
    requires s.isMoving && !AnySameXZ(s.vertices, p)
    ensures Run(s, [PointerDown, Click(Some(p))], atan2).vertices == s.vertices + [p]
    ensures Run(s, [Click(Some(p)), PointerDown], atan2).vertices == s.vertices
    ensures !Run(s, [PointerDown, Click(Some(p))], atan2).isMoving
    ensures !Run(s, [Click(Some(p)), PointerDown], atan2).isMoving
  {
    RunTwo(s, PointerDown, Click(Some(p)), atan2);
    RunTwo(s, Click(Some(p)), PointerDown, atan2);
  }
}

=== FILE: geometry.dfy ===
/**
 World-space points on the ground plane, the centroid of a vertex list and the
 closed outline built from a sorted ring of vertices.
 */
module Geometry {

  /** A world-space point. Only x and z carry meaning; y is a display height. */
  datatype Point = Point(x: real, y: real, z: real)

  /** The centroid accumulator of the complete handler: it has no y component. */
  datatype Center = Center(x: real, z: real)

  /** A vertex of the 2D outline, relative to the centroid. */
  datatype Offset = Offset(dx: real, dz: real)

  /** Height at which polygons and their copies are laid, just above the ground plane. */
  const Lift: real := 0.1

  /** Two points coincide for de-duplication when their x and z are equal. */
  predicate SameXZ(a: Point, b: Point) {
    a.x == b.x && a.z == b.z
  }

  /** No two points of `vs` share (x, z). */
  predicate DistinctXZ(vs: seq<Point>) {
    forall i, j :: 0 <= i < j < |vs| ==> !SameXZ(vs[i], vs[j])
  }

  /** The `some` test of the click handler: does any stored vertex share (x, z) with `p`? */
  function AnySameXZ(vs: seq<Point>, p: Point): (r: bool)
    ensures r <==> exists i :: 0 <= i < |vs| && SameXZ(vs[i], p)
  {
    if |vs| == 0 then false
    else SameXZ(vs[0], p) || AnySameXZ(vs[1..], p)
  }

  /** Appending a point that matches no stored vertex keeps the list duplicate-free. */
  lemma AppendKeepsDistinct(vs: seq<Point>, p: Point)
    requires DistinctXZ(vs)
    requires !AnySameXZ(vs, p)
    ensures DistinctXZ(vs + [p])
  {
  }

  /** The sum of the vertices' x. */
  function SumX(vs: seq<Point>): (sum: real) {
    if |vs| == 0 then 0.0 else vs[0].x + SumX(vs[1..])
  }

  /** The sum of the vertices' z. */
  function SumZ(vs: seq<Point>): (sum: real) {
    if |vs| == 0 then 0.0 else vs[0].z + SumZ(vs[1..])
  }

  /**
   The reduce of the complete handler: each vertex adds its own share
   x / n and z / n to the accumulator, left to right.
   */
  function CenterFold(vs: seq<Point>, n: real, acc: Center): (c: Center)
    requires n != 0.0
  {
    if |vs| == 0 then acc
    else CenterFold(vs[1..], n, Center(acc.x + vs[0].x / n, acc.z + vs[0].z / n))
  }

  /** The centroid of a vertex list, computed as the complete handler does. */
  function Centroid(vs: seq<Point>): (c: Center)
    requires |vs| > 0
  {
    CenterFold(vs, |vs| as real, Center(0.0, 0.0))
  }

  lemma {:induction false} CenterFoldIsShiftedMean(vs: seq<Point>, n: real, acc: Center)
    requires n != 0.0
    ensures CenterFold(vs, n, acc) == Center(acc.x + SumX(vs) / n, acc.z + SumZ(vs) / n)
    decreases |vs|
  {
    if |vs| > 0 {
      var acc' := Center(acc.x + vs[0].x / n, acc.z + vs[0].z / n);
      CenterFoldIsShiftedMean(vs[1..], n, acc');
      DivAdd(vs[0].x, SumX(vs[1..]), n);
      DivAdd(vs[0].z, SumZ(vs[1..]), n);
    }
  }

  lemma DivAdd(a: real, b: real, n: real)
    requires n != 0.0
    ensures a / n + b / n == (a + b) / n
  {
  }

  /** The accumulated shares add up to the arithmetic mean of the vertices' x and z. */
  lemma CentroidIsMean(vs: seq<Point>)
    requires |vs| > 0
    ensures Centroid(vs) == Center(SumX(vs) / (|vs| as real), SumZ(vs) / (|vs| as real))
  {
    CenterFoldIsShiftedMean(vs, |vs| as real, Center(0.0, 0.0));
  }

  /** Taking the vertex at index i out of the list takes its share out of the sums. */
  lemma {:induction false} SumsRemove(ws: seq<Point>, i: int)
    requires 0 <= i < |ws|
    ensures SumX(ws) == ws[i].x + SumX(ws[..i] + ws[i + 1..])
    ensures SumZ(ws) == ws[i].z + SumZ(ws[..i] + ws[i + 1..])
    decreases i
  {
    var r := ws[..i] + ws[i + 1..];
    if i == 0 {
      assert r == ws[1..];
    } else {
      var tail := ws[1..];
      assert r[0] == ws[0];
      assert r[1..] == tail[..i - 1] + tail[i..];
      assert tail[i - 1] == ws[i];
      SumsRemove(tail, i - 1);
    }
  }

  lemma MultisetRemove(vs: seq<Point>, ws: seq<Point>, i: int)
    requires |vs| > 0 && 0 <= i < |ws| && ws[i] == vs[0]
    requires multiset(vs) == multiset(ws)
    ensures multiset(vs[1..]) == multiset(ws[..i] + ws[i + 1..])
  {
    assert ws == ws[..i] + [ws[i]] + ws[i + 1..];
    assert vs == [vs[0]] + vs[1..];
    assert multiset(vs[1..]) == multiset(vs) - multiset{vs[0]};
    assert multiset(ws[..i] + ws[i + 1..]) == multiset(ws) - multiset{vs[0]};
  }

  /** The sums do not depend on the order of the vertices. */
  lemma {:induction false} SumsOfPermutation(vs: seq<Point>, ws: seq<Point>)
    requires multiset(vs) == multiset(ws)
    ensures SumX(vs) == SumX(ws) && SumZ(vs) == SumZ(ws)
    decreases |vs|
  {
    if |vs| > 0 {
      assert vs[0] in multiset(ws);
      var i :| 0 <= i < |ws| && ws[i] == vs[0];
      MultisetRemove(vs, ws, i);
      SumsOfPermutation(vs[1..], ws[..i] + ws[i + 1..]);
      SumsRemove(ws, i);
    } else {
      assert |ws| == |multiset(ws)| == 0;
    }
  }

  /** Clicking the same vertices in another order gives the same centroid. */
  lemma CentroidOfPermutation(vs: seq<Point>, ws: seq<Point>)
    requires |vs| > 0
    requires multiset(vs) == multiset(ws)
    ensures |ws| == |vs|
    ensures Centroid(vs) == Centroid(ws)
  {
    assert |vs| == |multiset(vs)| == |multiset(ws)| == |ws|;
    SumsOfPermutation(vs, ws);
    CentroidIsMean(vs);
    CentroidIsMean(ws);
  }

  /** The square (0,0), (2,0), (2,2), (0,2), clicked in any order, has its centroid at (1, 1). */
  lemma SquareCentroid(vs: seq<Point>)
    requires multiset(vs) == multiset{Point(0.0, 0.0, 0.0), Point(2.0, 0.0, 0.0), Point(2.0, 0.0, 2.0), Point(0.0, 0.0, 2.0)}
    ensures |vs| == 4
    ensures Centroid(vs) == Center(1.0, 1.0)
  {
    var square := [Point(0.0, 0.0, 0.0), Point(2.0, 0.0, 0.0), Point(2.0, 0.0, 2.0), Point(0.0, 0.0, 2.0)];
    assert multiset(square) == multiset(vs);
    assert |vs| == |multiset(vs)| == 4;
    CentroidOfPermutation(square, vs);
    CentroidIsMean(square);
  }

  /** The position of `p` relative to the centroid `c`, in the plane of the outline. */
  function OffsetOf(p: Point, c: Center): (o: Offset)
    ensures c.x + o.dx == p.x && c.z + o.dz == p.z
  {
    Offset(p.x - c.x, p.z - c.z)
  }

  /**
   The outline of the complete handler: a move to the first sorted vertex, a line
   to each of the others, and a last line back to the first one.
   */
  function Outline(ring: seq<Point>, c: Center): (path: seq<Offset>)
    requires |ring| > 0
    ensures |path| == |ring| + 1
    ensures path[|ring|] == path[0]
    ensures forall i :: 0 <= i < |ring| ==>
              Point(c.x + path[i].dx, ring[i].y, c.z + path[i].dz) == ring[i]
  {
    seq(|ring|, i requires 0 <= i < |ring| => OffsetOf(ring[i], c)) + [OffsetOf(ring[0], c)]
  }

  /**
   The mesh's rotation by -pi/2 about the x axis: (x, y, z) goes to (x, z, -y).
   The outline lies in the plane z = 0 of its shape, so its point (dx, dz)
   reaches the ground as (dx, 0, -dz).
   */
  function RotateToGround(p: Point): (q: Point) {
    Point(p.x, p.z, -p.y)
  }

  /** Where an outline point is drawn by a mesh at `position` that carries the rotation. */
  function Drawn(o: Offset, position: Point): (w: Point) {
    var q := RotateToGround(Point(o.dx, o.dz, 0.0));
    Point(position.x + q.x, position.y + q.y, position.z + q.z)
  }

  /**
   A polygon laid at the centroid draws each ring vertex mirrored in z about
   the centroid: the rotation turns the outline's +z offsets into -z.
   */
  lemma DrawnOutlineIsMirrored(ring: seq<Point>, c: Center)
    requires |ring| > 0
    ensures forall i :: 0 <= i < |ring| ==>
              Drawn(Outline(ring, c)[i], Point(c.x, Lift, c.z)) == Point(ring[i].x, Lift, 2.0 * c.z - ring[i].z)
  {
  }

  /** A vertex is drawn over its own marker exactly when it lies level with the centroid in z. */
  lemma DrawnOverMarkerIff(ring: seq<Point>, c: Center, i: int)
    requires 0 <= i < |ring|
    ensures SameXZ(Drawn(Outline(ring, c)[i], Point(c.x, Lift, c.z)), ring[i]) <==> ring[i].z == c.z
  {
    DrawnOutlineIsMirrored(ring, c);
  }

  /**
   The triangle (0,0), (2,0), (0,2) has its centroid at (2/3, 2/3), and its
   vertex (0, 2) is drawn at z = -2/3 instead of over its marker at z = 2.
   */
  lemma TriangleDrawnOffMarker()
    ensures var vs := [Point(0.0, 0.0, 0.0), Point(2.0, 0.0, 0.0), Point(0.0, 0.0, 2.0)];
            var c := Centroid(vs);
            && c == Center(2.0 / 3.0, 2.0 / 3.0)
            && Drawn(OffsetOf(vs[2], c), Point(c.x, Lift, c.z)) == Point(0.0, Lift, -2.0 / 3.0)
  {
    var vs := [Point(0.0, 0.0, 0.0), Point(2.0, 0.0, 0.0), Point(0.0, 0.0, 2.0)];
    CentroidIsMean(vs);
    assert vs[1..][1..][1..] == [];
  }
}

=== FILE: scene.dfy ===
/**
 The scene's list of child objects and the removal loop of the reset handler.
 */
module Scene {
  import opened Geometry

  /**
   A child of the scene. The ambient light, the ground plane and the grid are
   added once at start-up; markers, polygons and copies are added by the handlers.
   A polygon or copy is an opaque render object here: its shape and position
   are held in the editor state.
   */
  datatype SceneObject =
    | AmbientLight
    | GroundPlane
    | GridHelper
    | VertexMarker(at: Point)
    | PolygonMesh
    | CopyMesh

  /** The children in the order the start-up code adds them. */
  const InitialChildren: seq<SceneObject> := [AmbientLight, GroundPlane, GridHelper]

  /** The two objects reset spares. The ambient light is not one of them. */
  predicate IsFixture(o: SceneObject) {
    o.GroundPlane? || o.GridHelper?
  }

  /** The children that are fixtures, in their original relative order. */
  function KeepFixtures(children: seq<SceneObject>): (kept: seq<SceneObject>)
    ensures |kept| <= |children|
    ensures forall i :: 0 <= i < |kept| ==> IsFixture(kept[i])
  {
    if |children| == 0 then []
    else (if IsFixture(children[0]) then [children[0]] else []) + KeepFixtures(children[1..])
  }

  /**
   The kept children are exactly the fixtures among the originals, each as
   many times as it occurred.
   */
  lemma {:induction false} KeepFixturesContents(children: seq<SceneObject>)
    ensures forall o :: o in KeepFixtures(children) <==> o in children && IsFixture(o)
    ensures forall o :: IsFixture(o) ==> multiset(KeepFixtures(children))[o] == multiset(children)[o]
    ensures forall o :: !IsFixture(o) ==> o !in multiset(KeepFixtures(children))
    decreases |children|
  {
    if |children| > 0 {
      assert children == [children[0]] + children[1..];
      KeepFixturesContents(children[1..]);
    }
  }

  /** Keeping fixtures distributes over concatenation, so relative order is kept. */
  lemma {:induction false} KeepFixturesAppend(a: seq<SceneObject>, b: seq<SceneObject>)
    ensures KeepFixtures(a + b) == KeepFixtures(a) + KeepFixtures(b)
    decreases |a|
  {
    if |a| > 0 {
      assert (a + b)[1..] == a[1..] + b;
      KeepFixturesAppend(a[1..], b);
    } else {
      assert a + b == b;
    }
  }

  /** Keeping fixtures of a list with a known first element. */
  lemma KeepFixturesCons(o: SceneObject, rest: seq<SceneObject>)
    ensures KeepFixtures([o] + rest) == (if IsFixture(o) then [o] else []) + KeepFixtures(rest)
  {
  }

  /** Keeping fixtures twice keeps the same objects as keeping them once. */
  lemma {:induction false} KeepFixturesIdempotent(children: seq<SceneObject>)
    ensures KeepFixtures(KeepFixtures(children)) == KeepFixtures(children)
    decreases |children|
  {
    if |children| > 0 {
      var head := if IsFixture(children[0]) then [children[0]] else [];
      KeepFixturesAppend(head, KeepFixtures(children[1..]));
      KeepFixturesIdempotent(children[1..]);
    }
  }

  /** Removing the element at index |a| of a + [x] + b leaves a + b. */
  lemma RemoveAt(a: seq<SceneObject>, x: SceneObject, b: seq<SceneObject>)
    ensures (a + [x] + b)[..|a|] + (a + [x] + b)[|a| + 1..] == a + b
  {
    assert (a + [x] + b)[..|a|] == a;
    assert (a + [x] + b)[|a| + 1..] == b;
  }

  /** One loop step: the child at index i joins the filtered suffix. */
  lemma LoopStep(children: seq<SceneObject>, i: int)
    requires 0 <= i < |children|
    ensures children[..i + 1] + KeepFixtures(children[i + 1..])
         == children[..i] + [children[i]] + KeepFixtures(children[i + 1..])
    ensures KeepFixtures(children[i..])
         == (if IsFixture(children[i]) then [children[i]] else []) + KeepFixtures(children[i + 1..])
  {
    assert children[..i + 1] == children[..i] + [children[i]];
    assert children[i..] == [children[i]] + children[i + 1..];
    KeepFixturesCons(children[i], children[i + 1..]);
  }

  /**
   The removal loop of the reset handler: walks the children from the last index
   down to 0 and removes, at its index, every child that is not a fixture.
   */
  method RemoveDynamic(children: seq<SceneObject>) returns (kept: seq<SceneObject>)
    ensures kept == KeepFixtures(children)
  {
    kept := children;
    var i := |children| - 1;
    assert children[i + 1..] == [];
    while i >= 0
      invariant -1 <= i < |children|
      invariant kept == children[..i + 1] + KeepFixtures(children[i + 1..])
    {
      var obj := kept[i];
      ghost var before := children[..i];
      ghost var after := KeepFixtures(children[i + 1..]);
      LoopStep(children, i);
      assert kept == before + [obj] + after;
      if !IsFixture(obj) {
        RemoveAt(before, obj, after);
        kept := kept[..i] + kept[i + 1..];
      } else {
        assert before + [obj] + after == before + ([obj] + after);
      }
      i := i - 1;
    }
    assert children[0..] == children;
  }

  /** Reset applied to the start-up scene removes the light and keeps the plane and the grid. */
  lemma ResetInitialChildren()
    ensures KeepFixtures(InitialChildren) == [GroundPlane, GridHelper]
  {
  }
}

=== FILE: wrappers.dfy ===
/** Optional values and handler results. */
module Wrappers {

  /** An optional value: the result of a ray cast (hit or miss), or a nullable handle. */
  datatype Option<+T> = None | Some(value: T)

  /** Either a value or a user-facing error. */
  datatype Result<+T, +E> = Ok(value: T) | Err(error: E)
}
